=== FILE: README.md ===
# Favorites store, create-product controller and favorites page — a Dafny model

This project models the client-side logic of a small storefront. The rest of
the app is rendering around three pieces, and those three are modelled here:

- **The favorites store** (`FavoritesStore`). It holds a list of integer
  product ids in memory. Every change is mirrored into a browser storage area
  under a key derived from the optional user id: `favorites_<id>` for a truthy
  id and `favorites_guest` otherwise. The state is
  `State(items: seq<int>, storage: map<string, Stored>)`. Each reducer is a
  pure transition: `Initialize`, `Add`, `Remove`, `Toggle`, `ClearState` and
  `Clear`. Whether the code runs in a browser is the `browser` flag.
- **The create-product dialog's submit controller** (`CreateProduct`). It
  holds a six-field draft, a three-valued status (`Idle | Success | Error`) and
  a `loading` flag. The submit handler runs an authentication guard, then a
  completeness check, then exactly one `createProduct` call, then chooses an
  error message by a fixed priority. It is split at its `await`: `Begin` is the
  part before the request and `Settle` the part after it. `Submit` composes
  the two. The request's result is an input (`Outcome`). Toasts, navigation
  and the delayed close come back as `Effects`.
- **The favorites page** (`FavoritesPage`). It checks authentication, looks up
  every favorited id, drops the lookups that failed, and computes how many
  loading placeholders to show.

`Decimal` models how a template literal renders an integer (the user id in a
storage key, the status code in an error message). Its parser shows that no
information is lost. `Wrappers` holds `Option`.

Three behaviours of the code are worth stating up front:
- An unauthenticated submit shows a toast, closes the dialog and redirects
  to the login page without setting `status` (CreateProductModal.tsx:90-95).
- A successful create navigates to `/` once the timer fires
  (CreateProductModal.tsx:120-124). The comment at line 119 gives the reason:
  the backing API does not keep created products.
- The save/load round trip returns the list exactly, order included.

## Model

| member | source | states |
|---|---|---|
| FavoritesStore.Key | src/store/slices/favoritesSlice.ts:8-10 | every key starts with `favorites_`; the key is `favorites_guest` exactly when the id is null or 0; for a truthy id, the text after the prefix parses back to that id |
| FavoritesStore.KeyInjective | src/store/slices/favoritesSlice.ts:8-10 | two distinct truthy user ids never share a storage key |
| FavoritesStore.ScopeOf | src/components/AuthInitializer.tsx:19 | the scope derived from the signed-in user (`id || null`) is never 0 and selects the same key as the raw id |
| FavoritesStore.Load | src/store/slices/favoritesSlice.ts:13-27 | outside a browser the result is empty; a stored list under the scope's key is returned as is; any non-empty result is exactly what is stored under that key |
| FavoritesStore.Save | src/store/slices/favoritesSlice.ts:30-39 | in a browser, the scope's entry becomes exactly the saved list and a later load under the same scope returns it, and the only key added or changed is the scope's; outside a browser storage is unchanged |
| FavoritesStore.Initialize | src/store/slices/favoritesSlice.ts:50-52 | the list becomes what is stored for the scope, storage is only read, and in a browser memory and storage agree afterwards |
| FavoritesStore.RemoveAll | src/store/slices/favoritesSlice.ts:66 | the filter leaves no occurrence of the id; if the id is absent the list is unchanged |
| FavoritesStore.RemoveAllCounts | src/store/slices/favoritesSlice.ts:66 | the filter keeps every other id with its multiplicity and drops all copies of the removed id |
| FavoritesStore.RemoveAllNoDup | src/store/slices/favoritesSlice.ts:66 | filtering a duplicate-free list leaves it duplicate-free |
| FavoritesStore.RemoveAllConcat | src/store/slices/favoritesSlice.ts:66 | filtering distributes over concatenation, so the kept elements keep their order |
| FavoritesStore.IndexOf | src/store/slices/favoritesSlice.ts:73 | returns -1 exactly when the id is absent; otherwise returns the first index holding the id |
| FavoritesStore.RemoveAt | src/store/slices/favoritesSlice.ts:75 | the splice removes the element at the index and shifts the rest down in order, removing one copy from the multiset |
| FavoritesStore.Add | src/store/slices/favoritesSlice.ts:55-61 | a present id leaves items and storage unchanged (no write); an absent id is appended at the end and the new list is written under the payload's key only; the members gain the id; no duplicates are introduced |
| FavoritesStore.Remove | src/store/slices/favoritesSlice.ts:64-68 | the list is `RemoveAll` of the old list, so the survivors keep their order; the id is gone; every other element keeps its multiplicity; an absent id leaves the list unchanged; the list is written under the key even when nothing was removed; no duplicates are introduced |
| FavoritesStore.ToggleItems | src/store/slices/favoritesSlice.ts:73-78 | an absent id is appended at the end; for a present id, the first index holding it is spliced out and everything else is kept in order, leaving one copy fewer |
| FavoritesStore.ToggleFlipsMembership | src/store/slices/favoritesSlice.ts:73-78 | on a duplicate-free list, a toggle flips the id's membership, changes no other membership, and introduces no duplicate |
| FavoritesStore.Toggle | src/store/slices/favoritesSlice.ts:71-80 | the list is toggled as above and written under the payload's key whether the id was added or removed; no other key changes |
| FavoritesStore.ClearState | src/store/slices/favoritesSlice.ts:83-85 | the list is emptied and storage is untouched |
| FavoritesStore.Clear | src/store/slices/favoritesSlice.ts:88-94 | the list is emptied; in a browser only the scope's key is deleted and every other key is unchanged; outside a browser storage is unchanged |
| FavoritesStore.SaveThenInitialize | src/store/slices/favoritesSlice.ts:13-39 | initializing right after a save under the same scope yields the saved list exactly |
| FavoritesStore.InitializeIgnoresItems | src/store/slices/favoritesSlice.ts:50-52 | the previous in-memory list has no influence on initialization (replace, never merge) |
| FavoritesStore.ScopeSwitchDoesNotLeak | src/store/slices/favoritesSlice.ts:50-52 | initializing under one scope and then another gives exactly a fresh initialization under the second |
| FavoritesStore.ToggleItemsTwiceAbsent | src/store/slices/favoritesSlice.ts:73-78 | for an absent id, toggling twice gives back the exact list |
| FavoritesStore.ToggleItemsTwicePresent | src/store/slices/favoritesSlice.ts:73-78 | for an id with exactly one copy, the second toggle appends it again, and the other ids keep their order |
| FavoritesStore.ToggleTwiceAbsent | src/store/slices/favoritesSlice.ts:71-80 | two toggles of an absent id restore the exact list, and in a browser the stored copy equals it too |
| FavoritesStore.ToggleTwicePresent | src/store/slices/favoritesSlice.ts:71-80 | in a duplicate-free list, two toggles of a present id keep the same multiset and the other ids' order, with the id now last |
| FavoritesStore.MutationsKeepInSync | src/store/slices/favoritesSlice.ts:55-80 | in a browser, add, remove and toggle keep the in-memory list equal to what loading the scope's key returns |
| FavoritesStore.StepMatchesSetStep | src/store/slices/favoritesSlice.ts:55-80 | one add/remove/toggle changes the members as set insert, delete and flip do, and keeps the list duplicate-free |
| FavoritesStore.ReplayMatchesSetSemantics | src/store/slices/favoritesSlice.ts:55-80 | any run of add/remove/toggle keeps the list duplicate-free, holds exactly the set the operations denote, and keeps the stored copy in agreement |
| FavoritesStore.ReplayTouchesOnlyItsKey | src/store/slices/favoritesSlice.ts:30-39 | a run of mutations under one scope leaves every other key's entry as it was |
| FavoritesStore.AddAddRemoveExample | src/store/slices/favoritesSlice.ts:55-68 | adding 42 twice and removing 7 for user 7 from empty gives `[42]`, stored under `favorites_7` |
| Decimal.NatToString | src/store/slices/favoritesSlice.ts:9 | a non-negative integer renders as a non-empty run of digits, with a leading `0` exactly for zero |
| Decimal.NatRoundTrip | src/store/slices/favoritesSlice.ts:9 | reading the digits of a rendered non-negative integer gives the integer back |
| Decimal.IntToString | src/components/CreateProductModal.tsx:138 | an integer renders as digits, with a leading `-` exactly when it is negative |
| Decimal.IntRoundTrip | src/store/slices/favoritesSlice.ts:9 | parsing the template-literal text of any integer gives the integer back |
| Decimal.IntToStringInjective | src/store/slices/favoritesSlice.ts:9 | distinct integers render as distinct text |
| CreateProduct.IsComplete | src/components/CreateProductModal.tsx:97 | a draft passes exactly when all six fields are non-empty and the category is not `none` |
| CreateProduct.SetField | src/components/CreateProductModal.tsx:154-159 | the named field takes the new value and every other field keeps its value |
| CreateProduct.SelectCategory | src/components/CreateProductModal.tsx:161-166 | picking `none` clears the category; any other value is stored; no other field changes; the category never holds `none` afterwards |
| CreateProduct.OnOpenChanged | src/components/CreateProductModal.tsx:72-84 | closing resets all six fields to empty and the status to idle, which makes the draft incomplete; an open dialog is unaffected |
| CreateProduct.ErrorMessage | src/components/CreateProductModal.tsx:128-143 | the response body's message, then a textual body, then the status-code message whenever a response exists, then the error's own message only without a response, then the fallback |
| CreateProduct.StatusMessage | src/components/CreateProductModal.tsx:138 | the generic message starts with `Request failed with status code ` and the code parses back from the rest |
| CreateProduct.Begin | src/components/CreateProductModal.tsx:86-105 | without authentication: login redirect, modal closed, no request, form unchanged; with an incomplete draft: error status, no request; otherwise the request is in flight with `loading` set and the status idle |
| CreateProduct.SuccessText | src/components/CreateProductModal.tsx:116 | the success message is `Product "`, the created title, then `" created successfully!`, so the title can be read back from it |
| CreateProduct.SuccessTextInjective | src/components/CreateProductModal.tsx:116 | different titles give different success messages |
| CreateProduct.Settle | src/components/CreateProductModal.tsx:115-151 | success gives the success status and a close-and-go-home after 1000 ms; failure gives the error status and the chosen message with the hint "Please check your input and try again."; `loading` is cleared on both paths |
| CreateProduct.Submit | src/components/CreateProductModal.tsx:86-152 | `createProduct` is called exactly when the user is authenticated and the draft is complete; an authenticated submit never ends idle; success happens only for a created product; the draft is not changed; `loading` ends false after a request |
| CreateProduct.ResponseHidesErrorMessage | src/components/CreateProductModal.tsx:130-143 | when a response exists, the error's own message never affects the text shown |
| CreateProduct.ClosedDraftIsRejected | src/components/CreateProductModal.tsx:72-101 | after a close, an authenticated submit makes no request and sets the error status |
| CreateProduct.FilledDraftIsComplete | src/components/CreateProductModal.tsx:97-166 | filling the five inputs with non-empty text and picking a real category makes any draft pass the check |
| CreateProduct.PlaceholderCategoryExample | src/components/CreateProductModal.tsx:97-101 | the draft (Shoe, d, 10, 5, B, none) is refused with "Please fill in all fields" and no request |
| FavoritesPage.Failures | src/app/favorites/page.tsx:44-49 | the number of failed lookups never exceeds the number of lookups |
| FavoritesPage.Successes | src/app/favorites/page.tsx:51-55 | the filtered result has exactly as many products as successful lookups |
| FavoritesPage.SuccessesMembers | src/app/favorites/page.tsx:51-55 | a product is in the result exactly when some lookup returned it |
| FavoritesPage.SuccessesConcat | src/app/favorites/page.tsx:51-55 | filtering distributes over concatenation, so products appear in lookup order |
| FavoritesPage.DropFailure | src/app/favorites/page.tsx:51-55 | a failed lookup between two runs of results contributes nothing, and the runs' products are joined in order |
| FavoritesPage.LookupAll | src/app/favorites/page.tsx:44-49 | there is one lookup result per id, at the id's position, and it is the outcome of the fetch started at that position |
| FavoritesPage.Show | src/app/favorites/page.tsx:20-67 | unauthenticated: the toast "Please login to view your favorites", a redirect to `/login?returnUrl=/favorites`, no lookups, no products; authenticated: no toast, no redirect; no ids: no lookups, no products, not loading; otherwise one lookup per id and N−K products, each returned by the fetch at some position |
| FavoritesPage.ShowConcat | src/app/favorites/page.tsx:44-57 | products for two id lists back to back are those of the first followed by those of the second, whose fetches sit after the first list's |
| FavoritesPage.FailureDropsOnlyItself | src/app/favorites/page.tsx:44-57 | a failed lookup removes only its own product and never aborts the batch |
| FavoritesPage.AllLookupsSucceed | src/app/favorites/page.tsx:44-57 | when every lookup succeeds, there is one product per id, in id order |
| FavoritesPage.DuplicateIdsFetchedApart | src/app/favorites/page.tsx:44-55 | an id listed twice is fetched twice; if one fetch fails and the other succeeds, the product is shown once |
| FavoritesPage.SkeletonCount | src/app/favorites/page.tsx:85 | `min(n || 5, 10)` is always between 1 and 10: 5 for no ids, n for 1 to 10 ids, 10 beyond that |

## Left out

- Storage contents are modelled as a decoded list (`Ids`) or as text that gives no list (`Unreadable`: the empty string, or text that JSON parsing rejects). Both load as the empty list. JSON text that parses to something other than an integer array is not modelled; the code would assign it to `items` unchanged.
- A storage exception inside `getItem`/`setItem` is caught and logged in the code. The model covers only the missing-window case, through `browser`. A failed write would leave storage as it was, the same shape as `browser = false` for that one write.
- FavoritesStore.Clear: always ends with an empty list. In the code, `localStorage.removeItem` (favoritesSlice.ts:92) is not inside a `try`, unlike the reads and writes at lines 16-24 and 33-38. If that call throws, the reducer throws and `items` is not emptied. Storage exceptions are not modelled, so this path is not either.
- `Decimal.IntToString` renders every integer in plain decimal. JavaScript switches to exponent notation at 1e21 and above. Ids and status codes in that range are not modelled.
- User ids and product ids are integers. `NaN` and fractional numbers are not modelled.
- Logging (`console.error`), toasts' styling and duration, and `router.refresh()` are not modelled. Every toast of the modelled handlers keeps its message: in `Effects` for the create-product submit, including the hint under its failure toast, and in `View` for the favorites page's login toast.
- The dialog's open effect (CreateProductModal.tsx lines 48-69) is not modelled. Its auth check repeats the submit guard's toast, close and login redirect. Its category fetch is a network call that only fills the select's options.
- `Number(price)` and `Number(stock)` are float conversions. The draft's strings matter only for emptiness.
- The favorites page's outer `catch` (page.tsx:57-59, toast "Failed to load favorite products") is not modelled. It cannot be reached while `items` is an integer array: every lookup's rejection is caught per id, so `Promise.all` never rejects. A stored payload that is not an array reaches it, because `favoriteIds.map` (page.tsx:44) throws inside the `try`. Such payloads are outside the model, as noted above for storage contents.
- FavoritesPage.Show: models one run of the fetch effect on its own. The effect at page.tsx:28-67 has no cleanup or cancellation. If `favoriteIds` changes while an earlier run is still waiting on `Promise.all`, both runs call `setProducts` (:57) and `setLoading(false)` (:62). Whichever settles last wins, so the page can show a superseded list's products, or clear `loading` while the newer fetch is still running. Overlapping runs are not modelled, because they depend on the order in which requests settle.
- Concurrency of the lookups (`Promise.all`) is modelled as the lookups' results in id order. Timers are modelled as a delay value in `Navigation`.
- The product edit page and the layout, theme and toaster files are UI composition and are not part of this model.

=== FILE: CreateProduct.dfy ===
/** The create-product dialog's controller: the draft and its field
    handlers, the close-reset, the completeness check and the submit handler
    with its auth guard, status transitions and error-message choice. The
    network call's result is an input (`Outcome`); toasts, router pushes and
    the delayed close are returned as `Effects`. */
module CreateProduct {
  import opened Wrappers
  import Decimal

  datatype Status = Idle | Success | Error

  /** The six form strings. */
  datatype Draft = Draft(title: string, description: string, price: string, stock: string, brand: string, category: string)

  datatype Field = Title | Description | Price | Stock | Brand | Category

  const EmptyDraft: Draft := Draft("", "", "", "", "", "")

  /** The select's placeholder value. */
  const Placeholder: string := "none"

  function Get(d: Draft, f: Field): string {
    match f
    case Title => d.title
    case Description => d.description
    case Price => d.price
    case Stock => d.stock
    case Brand => d.brand
    case Category => d.category
  }

  /** The submit handler's check: six non-empty strings and a category other
      than the placeholder. */
  function IsComplete(d: Draft): (ok: bool)
    ensures ok <==> (forall f: Field :: Get(d, f) != "") && Get(d, Category) != Placeholder
  {
    assert Get(d, Title) == d.title && Get(d, Description) == d.description && Get(d, Price) == d.price;
    assert Get(d, Stock) == d.stock && Get(d, Brand) == d.brand && Get(d, Category) == d.category;
    d.title != "" && d.description != "" && d.price != "" && d.stock != ""
    && d.brand != "" && d.category != "" && d.category != Placeholder
  }

  /** `handleChange`: the named field takes the new value, the others keep theirs. */
  function SetField(d: Draft, f: Field, value: string): (r: Draft)
    ensures forall g: Field :: Get(r, g) == if g == f then value else Get(d, g)
  {
    match f
    case Title => d.(title := value)
    case Description => d.(description := value)
    case Price => d.(price := value)
    case Stock => d.(stock := value)
    case Brand => d.(brand := value)
    case Category => d.(category := value)
  }

  /** `handleCategoryChange`: picking the placeholder clears the category;
      no other field changes, and the category never holds the placeholder. */
  function SelectCategory(d: Draft, value: string): (r: Draft)
    ensures value == Placeholder ==> Get(r, Category) == ""
    ensures value != Placeholder ==> Get(r, Category) == value
    ensures forall g: Field :: g != Category ==> Get(r, g) == Get(d, g)
    ensures Get(r, Category) != Placeholder
  {
    d.(category := if value == Placeholder then "" else value)
  }

  /** The dialog's local state. */
  datatype Form = Form(draft: Draft, status: Status, loading: bool)

  /** The effect that runs when `open` changes: on close every field is
      cleared and the status goes back to idle. */
  function OnOpenChanged(form: Form, open: bool): (r: Form)
    ensures open ==> r == form
    ensures !open ==> (forall f: Field :: Get(r.draft, f) == "") && r.status == Idle && r.loading == form.loading
    ensures !open ==> !IsComplete(r.draft)
  {
    if open then form else Form(EmptyDraft, Idle, form.loading)
  }

  // ---------------------------------------------------------------------
  // Request failures and the message shown for them

  /** The body of an error response: an object (its `message`, "" when
      missing or falsy), a string, or anything else (null, a number, ...). */
  datatype Body = ObjectBody(message: string) | TextBody(text: string) | OtherBody

  datatype Response = Response(data: Body, status: int)

  /** A rejected request: the response, if one arrived, and the error's own
      `message` ("" when missing or falsy). */
  datatype Failure = Failure(response: Option<Response>, message: string)

  /** What `createProduct` came back with. */
  datatype Outcome = Created(title: string) | Rejected(failure: Failure)

  const Fallback: string := "Failed to create product"
  const StatusPrefix: string := "Request failed with status code "

  /** The message for a failed request, most specific first: the body's
      message, a textual body, the status code (whenever a response exists),
      the error's own message (only without a response), the fallback. */
  function ErrorMessage(f: Failure): (msg: string)
    ensures f.response.Some? && f.response.value.data.ObjectBody? && f.response.value.data.message != ""
      ==> msg == f.response.value.data.message
    ensures f.response.Some? && f.response.value.data.TextBody? ==> msg == f.response.value.data.text
    ensures f.response.Some? && (f.response.value.data == ObjectBody("") || f.response.value.data.OtherBody?)
      ==> |msg| > |StatusPrefix| && msg[..|StatusPrefix|] == StatusPrefix
          && Decimal.ParseInt(msg[|StatusPrefix|..]) == Some(f.response.value.status)
    ensures f.response.None? && f.message != "" ==> msg == f.message
    ensures f.response.None? && f.message == "" ==> msg == Fallback
  {
    match f.response
    case Some(resp) => (
      match resp.data
      case ObjectBody(m) => if m != "" then m else StatusMessage(resp.status)
      case TextBody(text) => text
      case OtherBody => StatusMessage(resp.status))
    case None =>
      if f.message != "" then f.message else Fallback
  }

  /** The generic message for a response; the code can be read back from it. */
  function StatusMessage(status: int): (msg: string)
    ensures |msg| > |StatusPrefix| && msg[..|StatusPrefix|] == StatusPrefix
    ensures Decimal.ParseInt(msg[|StatusPrefix|..]) == Some(status)
  {
    var code := Decimal.IntToString(status);
    Decimal.IntRoundTrip(status);
    assert (StatusPrefix + code)[|StatusPrefix|..] == code;
    StatusPrefix + code
  }

  // ---------------------------------------------------------------------
  // Submitting

  /** A toast's message and, for a failed request, the hint shown under it. */
  datatype Toast = ErrorToast(text: string, description: Option<string>) | SuccessToast(text: string)

  /** `Redirect` closes the dialog and pushes `path` after `delayMs`. */
  datatype Navigation = Stay | Redirect(path: string, delayMs: nat)

  /** What a submit did besides changing the form: whether `createProduct`
      was called, the toast shown, and where it navigates. */
  datatype Effects = Effects(requested: bool, toast: Toast, navigation: Navigation)

  datatype Reaction = Reaction(form: Form, effects: Effects)

  /** The handler either finishes before the request or suspends on it. */
  datatype Phase = Finished(reaction: Reaction) | InFlight(pending: Form)

  const LoginRedirect: string := "/login?returnUrl=/"
  const Home: string := "/"
  /** How long the success border shows before the dialog closes. */
  const SuccessDelayMs: nat := 1000
  const LoginRequired: string := "You must be logged in to create a product"
  const FillAllFields: string := "Please fill in all fields"

  /** The hint under the toast of a failed request. */
  const CheckInput: string := "Please check your input and try again."

  const SuccessOpen: string := "Product \""
  const SuccessClose: string := "\" created successfully!"

  /** The success toast: the created product's title between fixed text,
      so the title can be read back from the message. */
  function SuccessText(title: string): (s: string)
    ensures |s| == |SuccessOpen| + |title| + |SuccessClose|
    ensures s[..|SuccessOpen|] == SuccessOpen
    ensures s[|SuccessOpen|..|SuccessOpen| + |title|] == title
    ensures s[|SuccessOpen| + |title|..] == SuccessClose
  {
    SuccessOpen + title + SuccessClose
  }

  /** Different titles give different success messages. */
  lemma SuccessTextInjective(t1: string, t2: string)
    requires t1 != t2
    ensures SuccessText(t1) != SuccessText(t2)
  {
    if |t1| == |t2| {
      assert SuccessText(t1)[|SuccessOpen|..|SuccessOpen| + |t1|] == t1;
    }
  }

  /** `handleSubmit` up to the awaited request. Without authentication it
      redirects to the login page and leaves the form as it is; an
      incomplete draft gives the error status; otherwise the request is in
      flight with `loading` set and the status idle. */
  function Begin(form: Form, authenticated: bool): (p: Phase)
    ensures !authenticated ==>
      p == Finished(Reaction(form, Effects(false, ErrorToast(LoginRequired, None), Redirect(LoginRedirect, 0))))
    ensures authenticated && !IsComplete(form.draft) ==>
      p == Finished(Reaction(form.(status := Error), Effects(false, ErrorToast(FillAllFields, None), Stay)))
    ensures p.InFlight? <==> authenticated && IsComplete(form.draft)
    ensures p.InFlight? ==> p.pending == Form(form.draft, Idle, true)
  {
    if !authenticated then
      Finished(Reaction(form, Effects(false, ErrorToast(LoginRequired, None), Redirect(LoginRedirect, 0))))
    else if !IsComplete(form.draft) then
      Finished(Reaction(form.(status := Error), Effects(false, ErrorToast(FillAllFields, None), Stay)))
    else
      InFlight(Form(form.draft, Idle, true))
  }

  /** `handleSubmit` after the request settles: success shows the success
      status and schedules the close-and-go-home; failure shows the error
      status and the chosen message. `loading` is cleared either way. */
  function Settle(pending: Form, outcome: Outcome): (r: Reaction)
    ensures !r.form.loading && r.form.draft == pending.draft && r.effects.requested
    ensures outcome.Created? ==>
      && r.form.status == Success
      && r.effects.navigation == Redirect(Home, SuccessDelayMs)
      && r.effects.toast == SuccessToast(SuccessText(outcome.title))
    ensures outcome.Rejected? ==>
      && r.form.status == Error
      && r.effects.navigation == Stay
      && r.effects.toast == ErrorToast(ErrorMessage(outcome.failure), Some(CheckInput))
  {
    match outcome
    case Created(title) =>
      Reaction(Form(pending.draft, Success, false), Effects(true, SuccessToast(SuccessText(title)), Redirect(Home, SuccessDelayMs)))
    case Rejected(failure) =>
      Reaction(Form(pending.draft, Error, false), Effects(true, ErrorToast(ErrorMessage(failure), Some(CheckInput)), Stay))
  }

  /** The whole handler, given the outcome the request would have. */
  function Submit(form: Form, authenticated: bool, outcome: Outcome): (r: Reaction)
    ensures r.effects.requested <==> authenticated && IsComplete(form.draft)
    ensures r.form.draft == form.draft
    ensures !authenticated ==> r.form == form && r.effects.navigation == Redirect(LoginRedirect, 0)
    ensures authenticated ==> r.form.status != Idle
    ensures authenticated ==> (r.form.status == Success <==> IsComplete(form.draft) && outcome.Created?)
    ensures r.effects.requested ==> !r.form.loading
    ensures !r.effects.requested ==> r.form.loading == form.loading && r.effects.navigation != Redirect(Home, SuccessDelayMs)
  {
    match Begin(form, authenticated)
    case Finished(reaction) => reaction
    case InFlight(pending) => Settle(pending, outcome)
  }

  // ---------------------------------------------------------------------
  // Properties

  /** With a response present, the error's own message is never shown. */
  lemma ResponseHidesErrorMessage(resp: Response, m1: string, m2: string)
    ensures ErrorMessage(Failure(Some(resp), m1)) == ErrorMessage(Failure(Some(resp), m2))
  {
  }

  /** A dialog that was closed and reopened cannot submit until it is filled in again. */
  lemma ClosedDraftIsRejected(form: Form, outcome: Outcome)
    ensures var r := Submit(OnOpenChanged(form, false), true, outcome);
      !r.effects.requested && r.form.status == Error
  {
  }

  /** Typing a non-empty value into each input and picking a real category
      makes any draft complete. */
  lemma FilledDraftIsComplete(d: Draft, title: string, description: string, price: string, stock: string, brand: string, category: string)
    requires title != "" && description != "" && price != "" && stock != "" && brand != ""
    requires category != "" && category != Placeholder
    ensures IsComplete(SelectCategory(SetField(SetField(SetField(SetField(SetField(d,
      Title, title), Description, description), Price, price), Stock, stock), Brand, brand), category))
  {
  }

  /** A draft whose category is the placeholder is refused before any request. */
  lemma PlaceholderCategoryExample(loading: bool, outcome: Outcome)
    ensures var r := Submit(Form(Draft("Shoe", "d", "10", "5", "B", "none"), Idle, loading), true, outcome);
      && !r.effects.requested
      && r.form.status == Error
      && r.effects.toast == ErrorToast(FillAllFields, None)
  {
  }
}

=== FILE: Decimal.dfy ===
/** Decimal text of integers, as a JavaScript template literal renders an
    integral number (`${n}`): an optional '-' followed by digits without
    leading zeros. The parser is its inverse, which shows the rendering
    loses no information, so two distinct integers never render alike. */
module Decimal {
  import opened Wrappers

  predicate IsDigit(c: char) {
    '0' <= c <= '9'
  }

  predicate AllDigits(s: string) {
    forall i :: 0 <= i < |s| ==> IsDigit(s[i])
  }

  function DigitValue(c: char): (d: nat)
    requires IsDigit(c)
    ensures d < 10
  {
    (c as int) - ('0' as int)
  }

  function DigitChar(d: nat): (c: char)
    requires d < 10
    ensures IsDigit(c) && DigitValue(c) == d
  {
    ('0' as int + d) as char
  }

  /** Decimal digits of `n`, most significant first. */
  function NatToString(n: nat): (s: string)
    ensures |s| > 0 && AllDigits(s)
    ensures s[0] == '0' <==> n == 0
  {
    if n < 10 then [DigitChar(n)] else NatToString(n / 10) + [DigitChar(n % 10)]
  }

  /** Value of a string of digits, read most significant first. */
  function DigitsValue(s: string): nat
    requires AllDigits(s)
  {
    if |s| == 0 then 0 else DigitsValue(s[..|s| - 1]) * 10 + DigitValue(s[|s| - 1])
  }

  /** The text a template literal gives an integer. */
  function IntToString(i: int): (s: string)
    ensures |s| > 0
    ensures s[0] == '-' <==> i < 0
    ensures i < 0 ==> |s| > 1 && AllDigits(s[1..])
    ensures i >= 0 ==> AllDigits(s)
  {
    if i < 0 then "-" + NatToString(-i) else NatToString(i)
  }

  /** Reads an optional '-' followed by at least one digit; anything else is None. */
  function ParseInt(s: string): Option<int> {
    if |s| > 1 && s[0] == '-' && AllDigits(s[1..]) then Some(0 - DigitsValue(s[1..]) as int)
    else if |s| > 0 && AllDigits(s) then Some(DigitsValue(s))
    else None
  }

  lemma {:induction false} NatRoundTrip(n: nat)
    ensures DigitsValue(NatToString(n)) == n
  {
    if n >= 10 {
      var s := NatToString(n);
      assert s[..|s| - 1] == NatToString(n / 10);
      NatRoundTrip(n / 10);
    }
  }

  /** Parsing the rendering of any integer gives that integer back. */
  lemma IntRoundTrip(i: int)
    ensures ParseInt(IntToString(i)) == Some(i)
  {
    var s := IntToString(i);
    if i < 0 {
      assert s[1..] == NatToString(-i);
      NatRoundTrip(-i);
    } else {
      NatRoundTrip(i);
    }
  }

  /** Distinct integers render as distinct text. */
  lemma IntToStringInjective(a: int, b: int)
    ensures IntToString(a) == IntToString(b) ==> a == b
  {
    IntRoundTrip(a);
    IntRoundTrip(b);
  }
}

=== FILE: FavoritesPage.dfy ===
/** The favorites page: the auth gate, the fetch of every favorited product
    (each lookup may fail on its own; failures are dropped, never fatal) and
    the number of loading placeholders. Each `getProductById` result is the
    input `lookup`; the login toast and the redirect target are returned. */
module FavoritesPage {
  import opened Wrappers

  datatype Product = Product(id: int, title: string)

  const LoginRedirect: string := "/login?returnUrl=/favorites"
  const LoginRequired: string := "Please login to view your favorites"

  /** The number of lookups that failed. */
  function Failures(outs: seq<Option<Product>>): (k: nat)
    ensures k <= |outs|
  {
    if |outs| == 0 then 0 else (if outs[0].None? then 1 else 0) + Failures(outs[1..])
  }

  /** The products of the lookups that succeeded, in lookup order: a
      failure removes exactly one entry and no product is invented. */
  function Successes(outs: seq<Option<Product>>): (r: seq<Product>)
    ensures |r| == |outs| - Failures(outs)
  {
    if |outs| == 0 then []
    else
      assert outs == [outs[0]] + outs[1..];
      (if outs[0].Some? then [outs[0].value] else []) + Successes(outs[1..])
  }

  /** No product is invented and none that arrived is lost. */
  lemma {:induction false} SuccessesMembers(outs: seq<Option<Product>>)
    ensures forall p :: p in Successes(outs) <==> Some(p) in outs
  {
    if |outs| > 0 {
      assert outs == [outs[0]] + outs[1..];
      SuccessesMembers(outs[1..]);
    }
  }

  lemma {:induction false} SuccessesConcat(a: seq<Option<Product>>, b: seq<Option<Product>>)
    ensures Successes(a + b) == Successes(a) + Successes(b)
  {
    if |a| > 0 {
      assert (a + b)[0] == a[0];
      assert (a + b)[1..] == a[1..] + b;
      SuccessesConcat(a[1..], b);
    } else {
      assert a + b == b;
    }
  }

  /** The outcome of one `getProductById` call: the id fetched and the
      position of that fetch in the batch. Every position is its own
      request, so the same id listed twice may fail once and succeed once. */
  type Lookup = (int, nat) -> Option<Product>

  /** The lookups of a batch that starts `n` positions further on. */
  function Shift(lookup: Lookup, n: nat): Lookup {
    (x: int, i: nat) => lookup(x, i + n)
  }

  /** `favoriteIds.map(id => getProductById(id).catch(() => null))`. */
  function LookupAll(ids: seq<int>, lookup: Lookup): (outs: seq<Option<Product>>)
    ensures |outs| == |ids|
    ensures forall i :: 0 <= i < |ids| ==> outs[i] == lookup(ids[i], i)
  {
    seq(|ids|, i requires 0 <= i < |ids| => lookup(ids[i], i))
  }

  /** What the page shows: the error toast and the redirect issued, how
      many lookups were started, the products, and whether it is still
      loading. */
  datatype View = View(toast: Option<string>, redirect: Option<string>, lookups: nat, products: seq<Product>, loading: bool)

  /** The page's two effects run against the initial state (no products,
      loading). Unauthenticated: redirect to the login page and no lookup.
      No ids: nothing to fetch. Otherwise one lookup per id, and the
      products of those that succeeded. */
  function Show(authenticated: bool, ids: seq<int>, lookup: Lookup): (v: View)
    ensures !authenticated ==> v.toast == Some(LoginRequired) && v.redirect == Some(LoginRedirect) && v.lookups == 0 && v.products == []
    ensures authenticated ==> v.toast == None && v.redirect == None && !v.loading && v.lookups == |ids|
    ensures authenticated ==> |v.products| == |ids| - Failures(LookupAll(ids, lookup))
    ensures ids == [] ==> v.products == [] && v.lookups == 0
    ensures forall p :: p in v.products ==> exists i :: 0 <= i < |ids| && lookup(ids[i], i) == Some(p)
  {
    if !authenticated then View(Some(LoginRequired), Some(LoginRedirect), 0, [], true)
    else if |ids| == 0 then View(None, None, 0, [], false)
    else
      var outs := LookupAll(ids, lookup);
      var products := Successes(outs);
      SuccessesMembers(outs);
      assert forall p :: p in products ==> exists i :: 0 <= i < |ids| && outs[i] == Some(p);
      View(None, None, |ids|, products, false)
  }

  /** The products shown for two id lists back to back are those of the
      first followed by those of the second: order follows the id list. */
  lemma ShowConcat(a: seq<int>, b: seq<int>, lookup: Lookup)
    ensures Show(true, a + b, lookup).products
         == Show(true, a, lookup).products + Show(true, b, Shift(lookup, |a|)).products
  {
    LookupAllConcat(a, b, lookup);
    SuccessesConcat(LookupAll(a, lookup), LookupAll(b, Shift(lookup, |a|)));
  }

  /** A failed lookup drops only its own product; the batch goes on. */
  lemma FailureDropsOnlyItself(a: seq<int>, x: int, b: seq<int>, lookup: Lookup)
    requires lookup(x, |a|).None?
    ensures Show(true, a + [x] + b, lookup).products
         == Show(true, a, lookup).products + Show(true, b, Shift(lookup, |a| + 1)).products
  {
    ShowProducts(a + [x] + b, lookup);
    ShowProducts(a, lookup);
    ShowProducts(b, Shift(lookup, |a| + 1));
    LookupAllConcat(a + [x], b, lookup);
    LookupAllConcat(a, [x], lookup);
    assert LookupAll([x], Shift(lookup, |a|)) == [None];
    DropFailure(LookupAll(a, lookup), LookupAll(b, Shift(lookup, |a| + 1)));
  }

  lemma LookupAllConcat(a: seq<int>, b: seq<int>, lookup: Lookup)
    ensures LookupAll(a + b, lookup) == LookupAll(a, lookup) + LookupAll(b, Shift(lookup, |a|))
  {
  }

  lemma ShowProducts(ids: seq<int>, lookup: Lookup)
    ensures Show(true, ids, lookup).products == Successes(LookupAll(ids, lookup))
  {
  }

  lemma DropFailure(la: seq<Option<Product>>, lb: seq<Option<Product>>)
    ensures Successes(la + [None] + lb) == Successes(la) + Successes(lb)
  {
    var failed: seq<Option<Product>> := [None];
    SuccessesConcat(la + failed, lb);
    SuccessesConcat(la, failed);
    assert Successes(failed) == [] by {
      assert failed[1..] == [];
    }
  }

  /** When every lookup succeeds, the page shows one product per id, in id order. */
  lemma {:induction false} AllLookupsSucceed(ids: seq<int>, lookup: Lookup)
    requires forall i :: 0 <= i < |ids| ==> lookup(ids[i], i).Some?
    ensures var ps := Show(true, ids, lookup).products;
      |ps| == |ids| && forall i :: 0 <= i < |ids| ==> Some(ps[i]) == lookup(ids[i], i)
  {
    if |ids| > 0 {
      var x := ids[0];
      var rest := ids[1..];
      assert ids == [x] + rest;
      ShowConcat([x], rest, lookup);
      assert LookupAll([x], lookup) == [lookup(x, 0)];
      assert forall i :: 0 <= i < |rest| ==> Shift(lookup, 1)(rest[i], i) == lookup(ids[i + 1], i + 1);
      AllLookupsSucceed(rest, Shift(lookup, 1));
    }
  }

  /** The same id listed twice is fetched twice, and each fetch stands on
      its own: one may fail while the other succeeds. */
  lemma DuplicateIdsFetchedApart(x: int, p: Product, lookup: Lookup)
    requires lookup(x, 0).None? && lookup(x, 1) == Some(p)
    ensures Show(true, [x, x], lookup).products == [p]
  {
    ShowProducts([x, x], lookup);
    var outs := LookupAll([x, x], lookup);
    assert outs == [None] + [Some(p)];
    DropFailure([], [Some(p)]);
    assert Successes([Some(p)]) == [p] by {
      assert [Some(p)][1..] == [];
    }
  }

  /** The number of loading placeholders: the id count, five when there are
      none, and never more than ten. */
  function SkeletonCount(n: nat): (r: nat)
    ensures 1 <= r <= 10
    ensures n == 0 ==> r == 5
    ensures 1 <= n <= 10 ==> r == n
    ensures n > 10 ==> r == 10
  {
    var shown := if n == 0 then 5 else n;
    if shown < 10 then shown else 10
  }
}

=== FILE: FavoritesStore.dfy ===
/** The per-user favorites store: an in-memory list of product ids (the
    slice's `items`) mirrored into a key-to-list storage area. Each reducer is
    a pure transition on `State`; whether the code runs in a browser (where the
    storage area exists) is the `browser` flag. */
module FavoritesStore {
  import opened Wrappers
  import Decimal

  /** A payload's `userId: number | null`; ids are integral numbers. */
  type UserId = Option<int>

  /** What the storage area holds under a key, as far as loading is
      concerned: the JSON text of an integer list, or text that yields no
      list (the empty string, or text that JSON.parse rejects). */
  datatype Stored = Ids(ids: seq<int>) | Unreadable

  type Storage = map<string, Stored>

  /** The slice's `items` together with the storage area it mirrors into. */
  datatype State = State(items: seq<int>, storage: Storage)

  const KeyPrefix: string := "favorites_"
  const GuestKey: string := "favorites_guest"

  /** JavaScript truthiness of the user id: null and 0 are falsy. */
  predicate Truthy(user: UserId) {
    user.Some? && user.value != 0
  }

  function Members(xs: seq<int>): set<int> {
    set x | x in xs
  }

  predicate NoDup(xs: seq<int>) {
    forall i, j :: 0 <= i < j < |xs| ==> xs[i] != xs[j]
  }

  /** The storage key of a user's favorites. Every key starts with the
      prefix; only a falsy id gets the guest key, and a truthy id can be read
      back from the text after the prefix. */
  function Key(user: UserId): (k: string)
    ensures |k| > |KeyPrefix| && k[..|KeyPrefix|] == KeyPrefix
    ensures k == GuestKey <==> !Truthy(user)
    ensures Truthy(user) ==> Decimal.ParseInt(k[|KeyPrefix|..]) == Some(user.value)
  {
    if Truthy(user) then
      var text := Decimal.IntToString(user.value);
      var k := KeyPrefix + text;
      Decimal.IntRoundTrip(user.value);
      assert k[|KeyPrefix|..] == text;
      assert k[|KeyPrefix|] == text[0];
      assert GuestKey[|KeyPrefix|] == 'g';
      k
    else
      GuestKey
  }

  /** Distinct truthy user ids never share a storage key. */
  lemma KeyInjective(a: UserId, b: UserId)
    requires Truthy(a) && Truthy(b) && a != b
    ensures Key(a) != Key(b)
  {
  }

  /** The scope the app derives from the signed-in user (`user?.id || null`):
      a falsy id becomes null. It selects the same key as the raw id. */
  function ScopeOf(userId: Option<int>): (scope: UserId)
    ensures scope.Some? ==> scope.value != 0
    ensures Key(scope) == Key(userId)
    ensures Truthy(userId) ==> scope == userId
  {
    if Truthy(userId) then userId else None
  }

  /** The list read back for a user: what was stored under the user's key,
      and the empty list outside a browser, when nothing is stored, or when
      the stored text yields no list. */
  function Load(storage: Storage, browser: bool, user: UserId): (ids: seq<int>)
    ensures !browser ==> ids == []
    ensures browser && Key(user) in storage && storage[Key(user)].Ids? ==> ids == storage[Key(user)].ids
    ensures ids != [] ==> browser && Key(user) in storage && storage[Key(user)] == Ids(ids)
  {
    if !browser then []
    else
      var key := Key(user);
      if key in storage && storage[key].Ids? then storage[key].ids else []
  }

  /** `a` and `b` hold the same entry, or the same absence, under every key
      other than `key`. */
  ghost predicate AgreeExcept(a: Storage, b: Storage, key: string) {
    forall k :: k != key ==> (k in a <==> k in b) && (k in a ==> a[k] == b[k])
  }

  /** Storage `after` is `before` with `items` written under the user's key
      (in a browser) and with no other entry changed. */
  ghost predicate Persisted(before: Storage, after: Storage, browser: bool, user: UserId, items: seq<int>) {
    && AgreeExcept(before, after, Key(user))
    && (browser ==> after.Keys == before.Keys + {Key(user)} && after[Key(user)] == Ids(items) && Load(after, true, user) == items)
    && (!browser ==> after == before)
  }

  /** Writes the list under the user's key; outside a browser it does nothing. */
  function Save(storage: Storage, browser: bool, user: UserId, ids: seq<int>): (r: Storage)
    ensures Persisted(storage, r, browser, user, ids)
  {
    if browser then storage[Key(user) := Ids(ids)] else storage
  }

  /** In a browser, the in-memory list equals what loading would give. */
  predicate InSync(s: State, user: UserId) {
    Load(s.storage, true, user) == s.items
  }

  /** `initializeFavorites`: replaces the list by what is stored for the
      scope; storage is only read. */
  function Initialize(s: State, browser: bool, user: UserId): (r: State)
    ensures r.storage == s.storage
    ensures r.items == Load(s.storage, browser, user)
    ensures browser ==> InSync(r, user)
  {
    State(Load(s.storage, browser, user), s.storage)
  }

  /** `Array.prototype.filter(x => x !== id)`: every occurrence of `id`
      dropped, every other element kept with its multiplicity. */
  function RemoveAll(xs: seq<int>, id: int): (r: seq<int>)
    ensures id !in r
    ensures id !in xs ==> r == xs
  {
    if |xs| == 0 then []
    else if xs[0] == id then RemoveAll(xs[1..], id)
    else
      assert xs == [xs[0]] + xs[1..];
      [xs[0]] + RemoveAll(xs[1..], id)
  }

  /** The filter keeps every other id with its multiplicity. */
  lemma {:induction false} RemoveAllCounts(xs: seq<int>, id: int)
    ensures multiset(RemoveAll(xs, id)) == multiset(xs)[id := 0]
  {
    if |xs| > 0 {
      assert xs == [xs[0]] + xs[1..];
      RemoveAllCounts(xs[1..], id);
    }
  }

  /** Filtering a duplicate-free list leaves it duplicate-free. */
  lemma {:induction false} RemoveAllNoDup(xs: seq<int>, id: int)
    ensures NoDup(xs) ==> NoDup(RemoveAll(xs, id))
  {
    if |xs| > 0 && NoDup(xs) {
      RemoveAllNoDup(xs[1..], id);
      if xs[0] != id {
        var rest := RemoveAll(xs[1..], id);
        RemoveAllCounts(xs[1..], id);
        assert xs[0] !in xs[1..];
        assert multiset(rest)[xs[0]] == 0;
      }
    }
  }

  /** Filtering distributes over concatenation: the kept elements stay in
      their original order. */
  lemma {:induction false} RemoveAllConcat(a: seq<int>, b: seq<int>, id: int)
    ensures RemoveAll(a + b, id) == RemoveAll(a, id) + RemoveAll(b, id)
  {
    if |a| > 0 {
      assert (a + b)[0] == a[0];
      assert (a + b)[1..] == a[1..] + b;
      RemoveAllConcat(a[1..], b, id);
      if a[0] == id {
        assert RemoveAll(a + b, id) == RemoveAll(a[1..] + b, id);
        assert RemoveAll(a, id) == RemoveAll(a[1..], id);
      } else {
        assert RemoveAll(a + b, id) == [a[0]] + RemoveAll(a[1..] + b, id);
        assert RemoveAll(a, id) == [a[0]] + RemoveAll(a[1..], id);
      }
    } else {
      assert a + b == b;
    }
  }

  /** `Array.prototype.indexOf`: the first index holding `id`, or -1. */
  function IndexOf(xs: seq<int>, id: int): (i: int)
    ensures -1 <= i < |xs|
    ensures i == -1 <==> id !in xs
    ensures i >= 0 ==> xs[i] == id && forall k :: 0 <= k < i ==> xs[k] != id
  {
    if |xs| == 0 then -1
    else if xs[0] == id then 0
    else
      var j := IndexOf(xs[1..], id);
      assert xs == [xs[0]] + xs[1..];
      if j < 0 then -1 else j + 1
  }

  /** `Array.prototype.splice(i, 1)`: the element at `i` taken out, the
      others kept in order. */
  function RemoveAt(xs: seq<int>, i: int): (r: seq<int>)
    requires 0 <= i < |xs|
    ensures |r| == |xs| - 1
    ensures forall k :: 0 <= k < i ==> r[k] == xs[k]
    ensures forall k :: i <= k < |r| ==> r[k] == xs[k + 1]
    ensures multiset(r) == multiset(xs) - multiset{xs[i]}
    ensures Members(xs) - {xs[i]} <= Members(r) <= Members(xs)
    ensures NoDup(xs) ==> NoDup(r) && xs[i] !in r
  {
    assert xs == xs[..i] + [xs[i]] + xs[i + 1..];
    var r := xs[..i] + xs[i + 1..];
    assert Members(xs) == Members(xs[..i]) + {xs[i]} + Members(xs[i + 1..]);
    assert Members(r) == Members(xs[..i]) + Members(xs[i + 1..]);
    r
  }

  /** `addFavorite`: an absent id is appended and the new list written under
      the payload's key; a present id changes nothing, storage included. */
  function Add(s: State, browser: bool, id: int, user: UserId): (r: State)
    ensures id in s.items ==> r == s
    ensures id !in s.items ==> r.items == s.items + [id] && Persisted(s.storage, r.storage, browser, user, r.items)
    ensures Members(r.items) == Members(s.items) + {id}
    ensures NoDup(s.items) ==> NoDup(r.items)
  {
    if id in s.items then s
    else
      var items := s.items + [id];
      State(items, Save(s.storage, browser, user, items))
  }

  /** `removeFavorite`: every occurrence of the id goes, the rest keep their
      order, and the list is written even when nothing was removed. */
  function Remove(s: State, browser: bool, id: int, user: UserId): (r: State)
    ensures r.items == RemoveAll(s.items, id)
    ensures id !in r.items
    ensures multiset(r.items) == multiset(s.items)[id := 0]
    ensures Members(r.items) == Members(s.items) - {id}
    ensures id !in s.items ==> r.items == s.items
    ensures Persisted(s.storage, r.storage, browser, user, r.items)
    ensures NoDup(s.items) ==> NoDup(r.items)
  {
    var items := RemoveAll(s.items, id);
    RemoveAllCounts(s.items, id);
    RemoveAllNoDup(s.items, id);
    assert forall x :: x in items <==> x in multiset(items);
    State(items, Save(s.storage, browser, user, items))
  }

  /** The list part of `toggleFavorite`: the first occurrence is spliced
      out if there is one, otherwise the id is appended. */
  function ToggleItems(xs: seq<int>, id: int): (r: seq<int>)
    ensures id !in xs ==> r == xs + [id]
    ensures id in xs ==>
      exists i :: 0 <= i < |xs| && xs[i] == id && (forall k :: 0 <= k < i ==> xs[k] != id)
        && r == xs[..i] + xs[i + 1..]
    ensures id in xs ==> multiset(r) == multiset(xs) - multiset{id}
  {
    var i := IndexOf(xs, id);
    if i >= 0 then RemoveAt(xs, i) else xs + [id]
  }

  /** On a duplicate-free list a toggle flips the id's membership, changes
      no other membership, and introduces no duplicate. */
  lemma ToggleFlipsMembership(xs: seq<int>, id: int)
    requires NoDup(xs)
    ensures NoDup(ToggleItems(xs, id))
    ensures id in ToggleItems(xs, id) <==> id !in xs
    ensures Members(ToggleItems(xs, id)) == if id in xs then Members(xs) - {id} else Members(xs) + {id}
  {
  }

  /** `toggleFavorite`: the list toggled as above, then written under the
      payload's key whether the id was added or removed. */
  function Toggle(s: State, browser: bool, id: int, user: UserId): (r: State)
    ensures r.items == ToggleItems(s.items, id)
    ensures Persisted(s.storage, r.storage, browser, user, r.items)
  {
    var items := ToggleItems(s.items, id);
    State(items, Save(s.storage, browser, user, items))
  }

  /** `clearFavoritesState`: empties the list and leaves storage alone. */
  function ClearState(s: State): (r: State)
    ensures r.items == []
    ensures r.storage == s.storage
  {
    State([], s.storage)
  }

  /** `clearFavorites`: empties the list and, in a browser, deletes the
      scope's entry and no other. */
  function Clear(s: State, browser: bool, user: UserId): (r: State)
    ensures r.items == []
    ensures AgreeExcept(s.storage, r.storage, Key(user))
    ensures browser ==> r.storage.Keys == s.storage.Keys - {Key(user)}
    ensures !browser ==> r.storage == s.storage
    ensures browser ==> InSync(r, user)
  {
    if browser then State([], s.storage - {Key(user)}) else State([], s.storage)
  }

  // ---------------------------------------------------------------------
  // Properties relating several transitions

  /** Loading right after a save under the same scope gives the saved list. */
  lemma SaveThenInitialize(s: State, user: UserId, ids: seq<int>)
    ensures Initialize(State(s.items, Save(s.storage, true, user, ids)), true, user).items == ids
  {
  }

  /** Initialization replaces, never merges: the previous in-memory list has
      no influence on the result. */
  lemma InitializeIgnoresItems(s1: State, s2: State, browser: bool, user: UserId)
    requires s1.storage == s2.storage
    ensures Initialize(s1, browser, user) == Initialize(s2, browser, user)
  {
  }

  /** Switching scope (guest to user, or user to user) gives exactly what a
      fresh initialization under the new scope gives. */
  lemma ScopeSwitchDoesNotLeak(s: State, browser: bool, from: UserId, to: UserId)
    ensures Initialize(Initialize(s, browser, from), browser, to) == Initialize(s, browser, to)
  {
  }

  /** Two toggles of an absent id restore the list exactly. */
  lemma ToggleItemsTwiceAbsent(xs: seq<int>, id: int)
    requires id !in xs
    ensures ToggleItems(ToggleItems(xs, id), id) == xs
  {
  }

  /** Two toggles of an absent id restore the list exactly, and in a browser
      the stored list then equals the original list too. */
  lemma ToggleTwiceAbsent(s: State, browser: bool, id: int, user: UserId)
    requires id !in s.items
    ensures Toggle(Toggle(s, browser, id, user), browser, id, user).items == s.items
    ensures browser ==> Load(Toggle(Toggle(s, browser, id, user), browser, id, user).storage, true, user) == s.items
  {
  }

  /** Moving an id from the middle of a list to its end does not change
      the other ids or their order. */
  lemma FilterIgnoresMove(front: seq<int>, back: seq<int>, id: int)
    requires id !in front && id !in back
    ensures RemoveAll(front + back + [id], id) == front + back
    ensures RemoveAll(front + [id] + back, id) == front + back
  {
    var one := [id];
    assert RemoveAll(one, id) == [] by {
      assert one[1..] == [];
    }
    RemoveAllConcat(front + back, one, id);
    RemoveAllConcat(front + one, back, id);
    RemoveAllConcat(front, one, id);
  }

  /** In a duplicate-free list every member occurs exactly once. */
  lemma {:induction false} NoDupSingleCopy(xs: seq<int>, x: int)
    requires NoDup(xs) && x in xs
    ensures multiset(xs)[x] == 1
  {
    assert xs == [xs[0]] + xs[1..];
    assert NoDup(xs[1..]) by {
      forall i, j | 0 <= i < j < |xs| - 1 ensures xs[1..][i] != xs[1..][j] {
        assert xs[1..][i] == xs[i + 1] && xs[1..][j] == xs[j + 1];
      }
    }
    if xs[0] == x {
      assert x !in xs[1..] by {
        forall k | 0 <= k < |xs| - 1 ensures xs[1..][k] != x {
          assert xs[1..][k] == xs[k + 1];
        }
      }
    } else {
      NoDupSingleCopy(xs[1..], x);
    }
  }

  /** With a single copy of the id, the second toggle appends it again,
      and the other ids keep their order. */
  lemma ToggleItemsTwicePresent(xs: seq<int>, id: int)
    requires multiset(xs)[id] == 1
    ensures ToggleItems(ToggleItems(xs, id), id) == ToggleItems(xs, id) + [id]
    ensures RemoveAll(ToggleItems(xs, id) + [id], id) == RemoveAll(xs, id)
  {
    var once := ToggleItems(xs, id);
    assert multiset(once)[id] == 0;
    var i := IndexOf(xs, id);
    assert once == RemoveAt(xs, i);
    MoveToEndKeepsOthers(xs, i);
  }

  /** Taking out the only copy of an element and appending it keeps every
      other element in order. */
  lemma MoveToEndKeepsOthers(xs: seq<int>, i: int)
    requires 0 <= i < |xs| && xs[i] !in RemoveAt(xs, i)
    ensures RemoveAll(RemoveAt(xs, i) + [xs[i]], xs[i]) == RemoveAll(xs, xs[i])
  {
    var front, back := xs[..i], xs[i + 1..];
    SplitAt(xs, i);
    assert RemoveAt(xs, i) == front + back;
    FilterIgnoresMove(front, back, xs[i]);
  }

  /** A list is its prefix, the element at `i`, and its suffix. */
  lemma SplitAt(xs: seq<int>, i: int)
    requires 0 <= i < |xs|
    ensures xs == xs[..i] + [xs[i]] + xs[i + 1..]
  {
  }

  /** Two toggles of a present id (in a duplicate-free list) keep the same
      multiset and the same order of the other ids, with the id now last. */
  lemma ToggleTwicePresent(s: State, browser: bool, id: int, user: UserId)
    requires NoDup(s.items) && id in s.items
    ensures var t2 := Toggle(Toggle(s, browser, id, user), browser, id, user);
      && multiset(t2.items) == multiset(s.items)
      && t2.items[|t2.items| - 1] == id
      && RemoveAll(t2.items, id) == RemoveAll(s.items, id)
  {
    NoDupSingleCopy(s.items, id);
    ToggleItemsTwicePresent(s.items, id);
    var once := ToggleItems(s.items, id);
    assert multiset(once + [id]) == multiset(once) + multiset{id};
  }

  /** In a browser, every mutation keeps the list and the stored copy in
      agreement; an initialization or a durable clear establishes it. */
  lemma MutationsKeepInSync(s: State, id: int, user: UserId)
    requires InSync(s, user)
    ensures InSync(Add(s, true, id, user), user)
    ensures InSync(Remove(s, true, id, user), user)
    ensures InSync(Toggle(s, true, id, user), user)
  {
  }

  /** One favorites mutation, with the product id it carries. */
  datatype Op = AddOp(id: int) | RemoveOp(id: int) | ToggleOp(id: int)

  function Step(s: State, browser: bool, user: UserId, op: Op): State {
    match op
    case AddOp(id) => Add(s, browser, id, user)
    case RemoveOp(id) => Remove(s, browser, id, user)
    case ToggleOp(id) => Toggle(s, browser, id, user)
  }

  /** The store after a run of mutations under one scope. */
  function Replay(s: State, browser: bool, user: UserId, ops: seq<Op>): State
    decreases |ops|
  {
    if |ops| == 0 then s else Replay(Step(s, browser, user, ops[0]), browser, user, ops[1..])
  }

  /** The reference meaning of the same mutations on a set of ids. */
  function SetStep(m: set<int>, op: Op): set<int> {
    match op
    case AddOp(id) => m + {id}
    case RemoveOp(id) => m - {id}
    case ToggleOp(id) => if id in m then m - {id} else m + {id}
  }

  function NetEffect(m: set<int>, ops: seq<Op>): set<int>
    decreases |ops|
  {
    if |ops| == 0 then m else NetEffect(SetStep(m, ops[0]), ops[1..])
  }

  /** One mutation keeps the list duplicate-free, changes its members as the
      set operation does, and keeps the stored copy in agreement. */
  lemma StepMatchesSetStep(s: State, browser: bool, user: UserId, op: Op)
    requires NoDup(s.items)
    ensures NoDup(Step(s, browser, user, op).items)
    ensures Members(Step(s, browser, user, op).items) == SetStep(Members(s.items), op)
    ensures browser && InSync(s, user) ==> InSync(Step(s, browser, user, op), user)
  {
    match op
    case AddOp(id) =>
    case RemoveOp(id) =>
    case ToggleOp(id) =>
      ToggleFlipsMembership(s.items, id);
  }

  /** Any run of add/remove/toggle keeps the list duplicate-free, holds
      exactly the set the operations denote, and (in a browser) keeps the
      stored copy in agreement. */
  lemma {:induction false} ReplayMatchesSetSemantics(s: State, browser: bool, user: UserId, ops: seq<Op>)
    requires NoDup(s.items)
    ensures NoDup(Replay(s, browser, user, ops).items)
    ensures Members(Replay(s, browser, user, ops).items) == NetEffect(Members(s.items), ops)
    ensures browser && InSync(s, user) ==> InSync(Replay(s, browser, user, ops), user)
    decreases |ops|
  {
    if |ops| > 0 {
      var next := Step(s, browser, user, ops[0]);
      StepMatchesSetStep(s, browser, user, ops[0]);
      ReplayMatchesSetSemantics(next, browser, user, ops[1..]);
    }
  }

  /** A run of mutations under one scope touches no other scope's entry. */
  lemma {:induction false} ReplayTouchesOnlyItsKey(s: State, browser: bool, user: UserId, ops: seq<Op>)
    ensures AgreeExcept(s.storage, Replay(s, browser, user, ops).storage, Key(user))
    decreases |ops|
  {
    if |ops| > 0 {
      var next := Step(s, browser, user, ops[0]);
      assert AgreeExcept(s.storage, next.storage, Key(user));
      ReplayTouchesOnlyItsKey(next, browser, user, ops[1..]);
    }
  }

  /** Adding 42 twice and then removing 7, all for user 7, starting empty,
      leaves [42], stored under "favorites_7" in a browser. */
  lemma AddAddRemoveExample(storage: Storage, browser: bool)
    ensures var s := Remove(Add(Add(State([], storage), browser, 42, Some(7)), browser, 42, Some(7)), browser, 7, Some(7));
      && s.items == [42]
      && (browser ==> s.storage[Key(Some(7))] == Ids([42]))
    ensures Key(Some(7)) == "favorites_7"
  {
  }
}

=== FILE: Wrappers.dfy ===
/** The optional value used wherever the source has `T | null` or a value
    that may be missing. */
module Wrappers {

  datatype Option<+T> = None | Some(value: T)
}
